=== FILE: README.md ===
# sneaky-save, modelled in Dafny

`SneakySave` is an ActiveRecord mixin. It saves one record with a raw
`INSERT` or `UPDATE` and skips validations and callbacks. `sneaky_save`
answers `false` when the store raises `ActiveRecord::StatementInvalid`.
`sneaky_save!` lets that exception reach the caller.

This project models the mixin's decision logic as pure functions:

- routing a new record to create and a persisted one to update;
- resolving the primary key on create: prefetch it from the sequence, or drop
  the `'id'` column so that the store generates it;
- building the insert: either the dialect's all-defaults row, or
  `INSERT INTO <table> (<columns>) VALUES (<values>)`;
- planning the update: a no-op when nothing changed, otherwise
  `update_all` of the changed fields, matched on the original key;
- reading the store's answer as `true` or `false`.

The store adapter is a record of uninterpreted parameters:

- the prefetch flag;
- the dialect's all-defaults insert value (`empty_insert_statement_value`);
- the three quoting functions;
- the three calls that can raise: the sequence fetch, the insert and
  `update_all`. Each returns either a value or a raised `Error`.

Every operation returns an `Outcome`, which holds three things:

- the record as the operation leaves it;
- the boolean result or the exception raised;
- the list of store calls made.

Files:

- `attribute_map.dfy` (`AttributeMap`): ordered string-keyed maps, the shape
  of the Ruby Hashes involved. It provides lookup, assignment in place,
  `reject!`, keys and values.
- `sql_text.dfy` (`SqlText`): `join(', ')`, its inverse on comma-free pieces,
  and the INSERT frame.
- `store.dfy` (`Store`): values, Ruby truthiness, errors, statements, store
  calls and the adapter.
- `sneaky_save.dfy` (`SneakySave`): the record and the mixin's methods.
- `save_properties.dfy` (`SaveProperties`): lemmas that relate several
  operations, lemmas against the stored row, and worked examples.

Three quirks of the source are reproduced as written:

- Create hard-codes the column name `'id'` (`lib/sneaky-save.rb:52`, `:87`).
  Update uses `self.class.primary_key` (`:99`).
- The filter at `:52` compares `key.try(:name)` with `'id'`. The keys are
  strings, which have no `name`, so `try` gives `nil` and nothing is
  removed. `SneakySave.RejectByName` is proved to be the identity. The
  `'id'` column is really removed in `get_attribute_values` (`:86-88`).
- The writes of the key at `:41` and `:62` are recorded by ActiveRecord's dirty
  tracking, and the mixin never clears the change set. So after a create that
  took its key from the sequence or the store, the key is still a change from
  `nil`. A second `sneaky_save` of the same object then updates the row whose
  key is `nil` (`:100`, `:112`). `SaveProperties.SecondSaveTargetsNilKey`
  states this.

`sneaky_save` rescues `StatementInvalid` around the whole create or update
(`:13-18`), and that includes `next_sequence_value` (`:41`). So a sequence
fetch that raises `StatementInvalid` makes `sneaky_save` answer `false`, like a
failing insert or `update_all` does. A fetch that raises any other kind of
error reaches the caller.

Every store call that raises ends the operation, and the exception it raised is
the operation's result. `Store.Propagates` states this for an operation's call
log: the result is an exception exactly when a call raised, that call is the
last one, and the result is that call's exception.

## Model

| member | source | states |
|---|---|---|
| SneakySave.Save | lib/sneaky-save.rb:13-19 | A `StatementInvalid` from the create or update becomes `false`. Every other result, the record state and the store calls equal those of `sneaky_save!`. `sneaky_save` never raises `StatementInvalid`. |
| SneakySave.Rescue | lib/sneaky-save.rb:14-18 | The rescue turns a `StatementInvalid` into `false` and passes every other result through, exceptions of other kinds included. The record state and the store calls are untouched. No `StatementInvalid` leaves it. |
| SneakySave.SaveBang | lib/sneaky-save.rb:25-33 | `sneaky_save!` raises exactly when a store call raised, and then it raises that call's exception, whatever its kind, with no store call after it. A new record always makes a store call; when it saves, its last call is an insert, it is persisted and it answers the truthiness of its id. A persisted record is left unchanged. With no changes it answers `true` with no call. Otherwise its one call is the `update_all` matched on the stored key, and it answers `true` iff that call hit a row. |
| SneakySave.CreateOrUpdate | lib/sneaky-save.rb:31-33 | A new record always makes a store call, never `update_all`, and when it succeeds its last call is an insert and it is left persisted. A persisted record goes to the update and is left unchanged: with no changes it answers `true` with no call, otherwise its one call is the `update_all` matched on the stored key, and it answers `true` iff that call hit a row. Every exception is a store call's, passed on unchanged. |
| SneakySave.Create | lib/sneaky-save.rb:37-63 | On success the record is no longer new, the last store call is the insert, and the result is the truthiness of its final id. The last call is an insert unless the only call is the sequence fetch. On an exception the lifecycle flag is unchanged, and the exception is the one the sequence fetch or the insert raised. With the key unset and prefetch allowed, the first store call is the sequence fetch. A create never calls `update_all`. |
| SneakySave.CreateSteps | lib/sneaky-save.rb:37-63 | The same promises as `Create`, with the insert statement built from the keyed record by a parameter. `Create` is its only caller and always builds the statement with `CreateStatement`. |
| SneakySave.AssignId | lib/sneaky-save.rb:41 | `self.id = v` makes the id `v`, raw and cast. Every other attribute keeps its raw and its cast value. The write is recorded as a change of the key exactly when `v` differs from the key's original value. The key the record has in the store, which the update matches on, is unchanged. |
| SneakySave.TrackWrite | lib/sneaky-save.rb:41 | Dirty tracking of one attribute write: the attribute is in the change set exactly when its new value differs from its original value, and the change set keeps that original value. No other attribute's entry changes. |
| AttributeMap.Put | lib/sneaky-save.rb:41 | Assigning a hash key makes lookup of that key give the new value and leaves every other key's lookup unchanged. |
| AttributeMap.PutKeepsPosition | lib/sneaky-save.rb:41 | Assigning an existing key keeps every key in its position; a new key is appended last. |
| SneakySave.GetAttributeValues | lib/sneaky-save.rb:81-91 | When the key is unset and prefetch is not allowed, the map has no `'id'` key. Otherwise it is all of `attributes_before_type_cast`. Every key other than `'id'` keeps its raw value. |
| AttributeMap.Reject | lib/sneaky-save.rb:87 | `reject!` on a key leaves no entry with that key. It keeps every other entry, and no other key's lookup changes. |
| AttributeMap.RejectRemovesOne | lib/sneaky-save.rb:86-88 | In a hash with distinct keys, rejecting one entry's key removes exactly that entry and keeps the others in order. |
| SneakySave.RejectByName | lib/sneaky-save.rb:51-53 | The `key.try(:name) == 'id'` filter leaves the attribute map unchanged. |
| SneakySave.CreateAttributes | lib/sneaky-save.rb:44-53 | The map the create writes is exactly the map from `get_attribute_values`; the second filter removes nothing. |
| SneakySave.MarkInserted | lib/sneaky-save.rb:61-62 | After `@new_record = false` and `self.id ||= new_id`, the record is persisted. Its id is the old id when that was truthy, else the store's id. Every other attribute keeps its raw and its cast value. Only the key's entry of the change set can change, and the key the record has in the store is unchanged. |
| SneakySave.InsertRow | lib/sneaky-save.rb:55-62 | The insert makes exactly one store call. If it raises, the record is untouched and the exception is the store's. On success the record is `MarkInserted` with the store's id, so it is persisted and the result is the truthiness of its id. |
| SaveProperties.PrefetchAssignsSequenceValue | lib/sneaky-save.rb:38-45 | With the key unset and prefetch allowed, the fetched value becomes the id before the attributes are taken. The insert writes the key column with that value and drops nothing. A truthy value is the final id and the result is `true`. If the insert fails, the key stays assigned. |
| SaveProperties.SequenceFailureStopsCreate | lib/sneaky-save.rb:40-42 | A failed sequence fetch is the create's outcome. Nothing is inserted and the record is unchanged. |
| SaveProperties.PreassignedIdKept | lib/sneaky-save.rb:38-62 | A pre-assigned id causes no sequence fetch, and the insert writes every raw attribute. A truthy id is kept, and a successful insert answers `true`. |
| SaveProperties.NoPrefetchDropsId | lib/sneaky-save.rb:81-91 | With the key unset and no prefetch, the insert map has no `'id'` column and every other column keeps its raw value. The record takes the store's id, and the result is its truthiness. |
| SaveProperties.DropIdKeepsOrder | lib/sneaky-save.rb:86-88 | Dropping the `'id'` column removes exactly that column and keeps every other column in its order. |
| SaveProperties.IdColumnWrittenUnlessGenerated | lib/sneaky-save.rb:81-91 | For a key named `'id'`, the map `get_attribute_values` builds for the record lacks the `'id'` column exactly when the key is unset and cannot be prefetched. |
| SaveProperties.EmptyRowTakesStoreId | lib/sneaky-save.rb:55-62 | An empty insert map is written as the all-defaults row, and the record still takes the store's id. |
| SaveProperties.CreateWritesOnlyKey | lib/sneaky-save.rb:37-63 | A create writes only the primary-key attribute and the lifecycle flag: every other attribute keeps its raw and its cast value. Only the key's entry of the change set can differ, and the key the record has in the store is unchanged. |
| SaveProperties.InsertRowWritesOnlyKey | lib/sneaky-save.rb:55-62 | Running an insert writes only the primary-key attribute and the lifecycle flag: every other attribute keeps its raw and its cast value. Only the key's entry of the change set can differ, and the key the record has in the store is unchanged. |
| SaveProperties.SecondSaveTargetsNilKey | lib/sneaky-save.rb:37-63 | After a create that set an unset key and answered `true`, the key is still a change from `nil`. A second save of the same object is one `update_all` whose WHERE key is `nil`. |
| SaveProperties.InsertColumnsAlignWithValues | lib/sneaky-save.rb:65-79 | An empty map gives the default-values insert. Otherwise the statement is the INSERT frame around n quoted columns and n quoted values. The i-th column and the i-th value come from the i-th entry, and pairing keys and values back gives the map. |
| SneakySave.InsertStatementFor | lib/sneaky-save.rb:55-59 | The all-defaults row is inserted exactly when the attribute map is empty, with the table and the dialect's empty-insert value; otherwise the statement is the `insert_record` text of the map. |
| SneakySave.InsertRecordSql | lib/sneaky-save.rb:65-79 | `insert_record` renders the INSERT frame around the quoted table name, n quoted columns and n quoted values for a map of n entries; the i-th column and the i-th value are both quoted from the i-th entry. |
| AttributeMap.ZipKeysValues | lib/sneaky-save.rb:71-72 | Taking the keys and the values apart and pairing them back by position gives the original map. |
| SqlText.SplitJoin | lib/sneaky-save.rb:71-72 | Splitting a `join(', ')` of comma-free pieces gives the pieces back in order. |
| SqlText.SplitFirstPiece | lib/sneaky-save.rb:71-72 | A comma-free piece followed by `", "` is split off whole. |
| SaveProperties.InsertListsReadBack | lib/sneaky-save.rb:71-75 | When the quoted column and the quoted value of every entry hold no comma, the rendered column list and value list read back as the quoted columns and values. |
| SneakySave.UpdateFields | lib/sneaky-save.rb:128-132 | The update hash has exactly the changed fields as keys, in order, each with its current value. Distinct changed fields give distinct keys. |
| SneakySave.Update | lib/sneaky-save.rb:95-114 | With no changes the result is `true` and there is no store call. Otherwise there is exactly one `update_all`, and the result is `true` iff it affected a non-zero number of rows. An exception is exactly the one `update_all` raised. The record is never changed. |
| SneakySave.UpdateRows | lib/sneaky-save.rb:112-113 | `update_all` is the one store call. The result is `true` iff it affected a row; an exception is the one it raised. The record is unchanged. |
| SneakySave.OriginalId | lib/sneaky-save.rb:99-100 | When the key itself changed, the WHERE key is the value the change set recorded as its original; otherwise it is the current id. `SaveProperties.OriginalIdIsStoredKey` relates it to the stored row. |
| SaveProperties.OriginalIdIsStoredKey | lib/sneaky-save.rb:99-100 | The WHERE key is the key the row has in the store, that is, the record with its changes reverted. This holds also when the key itself changed. |
| SaveProperties.UpdateRestoresCurrentRow | lib/sneaky-save.rb:102-113 | Writing the SET map over the stored row gives a row that reads, column by column, like the record. |
| SaveProperties.UpdatePlan | lib/sneaky-save.rb:97-113 | The update targets the record's table and its primary-key column, matched on the stored key. It assigns exactly the changed fields with their current values and answers rows ≠ 0. |
| SaveProperties.UpdateErrorReachesCaller | lib/sneaky-save.rb:13-27 | When `update_all` raises, `sneaky_save!` raises that same exception with the record untouched. `sneaky_save` answers `false` for a `StatementInvalid` and raises any other kind. |
| SaveProperties.InsertErrorReachesCaller | lib/sneaky-save.rb:13-27 | When the insert of a record whose key needs no prefetch raises, `sneaky_save!` raises that same exception with the record still new. `sneaky_save` answers `false` for a `StatementInvalid` and raises any other kind. |
| SaveProperties.PrefetchedInsertErrorReachesCaller | lib/sneaky-save.rb:13-27 | When the insert after a successful prefetch raises, `sneaky_save!` raises that same exception and the fetched key stays assigned. `sneaky_save` answers `false` for a `StatementInvalid` and raises any other kind. |
| SaveProperties.FetchErrorReachesCaller | lib/sneaky-save.rb:13-41 | When `next_sequence_value` raises, `sneaky_save!` raises that same exception with nothing inserted. `sneaky_save` answers `false` for a `StatementInvalid` and raises any other kind. |
| SaveProperties.WidgetWithPrefetch | lib/sneaky-save.rb:37-79 | Example: with prefetch and sequence value 42, the save fetches, renders `INSERT INTO widgets (id, name) VALUES (42, 'A')`, sets id 42 and answers `true`. |
| SaveProperties.WidgetWithoutPrefetch | lib/sneaky-save.rb:81-91 | Example: without prefetch the save renders `INSERT INTO widgets (name) VALUES ('A')` and takes the store's id. |
| SaveProperties.WidgetRename | lib/sneaky-save.rb:95-132 | Example: renaming widget 7 updates `name` to `'B'` where `id` is 7, and answers whether a row was hit. |
| SaveProperties.WidgetStatementInvalid | lib/sneaky-save.rb:13-27 | Example: when the update raises `StatementInvalid`, `sneaky_save` answers `false` and `sneaky_save!` raises it. |
| SaveProperties.WidgetSecondSave | lib/sneaky-save.rb:95-113 | Example: saving the widget again after the create without prefetch runs `update_all` of `id` 5 where `id` is nil. With a store that reports no row hit, it answers `false`. |
| SaveProperties.WidgetListsReadBack | lib/sneaky-save.rb:71-75 | Example: the widget's quoted columns and values hold no comma, so its column list and value list read back. |

## Left out

- `ActiveRecord::Base.use_yaml_unsafe_load = true` (`lib/sneaky-save.rb:96`) is left out. It is process-wide framework state and plays no part in the decisions.
- The Rails 3 branch is left out: serialized attributes (`:104-110`), the choice of connection (`:134-140`) and the version check (`:142-144`). The model is of Rails newer than 3, where that branch is skipped and `self.class.connection` is used.
- Connection acquisition, `unscoped.insert`, `update_all` and SQL execution are not modelled. They are foreign ActiveRecord calls and appear only as the adapter's `insert` and `updateAll` results.
- The rendering of the `UPDATE` text is not modelled. `update_all` builds it inside ActiveRecord, not in the mixin, so the model keeps the statement as table, key column, key value and assignments.
- Real quoting and escaping are not modelled. `quote_table_name`, `quote_column_name` and `quote` are uninterpreted functions, because the mixin does no escaping of its own.
- Quoting cannot fail in the model, and `Value` holds only nil, booleans, integers and text. In Ruby, `quote` (`:72`) raises `TypeError` for a raw value it cannot quote, such as a Hash or an Array assigned to a JSON or array column. That error is not a `StatementInvalid`, so it escapes `sneaky_save` too, and no insert is made. The model has no such values and no such path.
- `prefetch_primary_key?` is asked twice (`:38`, `:86`). The model treats it as a function of the table name, so both calls give the same answer.
- SneakySave.AssignId: the type cast of an assigned value is not modelled. The value is stored as both the raw and the cast value, and dirty tracking compares the values as given. Rails' type system lies outside the mixin.
- SneakySave.TrackWrite: a key written for the first time is appended to the change set. ActiveRecord lists changes in attribute order, so the model may place the key's entry elsewhere. That order only decides the order of the update's assignments.
- Commented-out code (`:44`, `:47`, `:70`, `:116-126`) and the `ActiveRecord::Base.send :include` wiring (`:147`) are not modelled.
- The changed-attributes hash is a Ruby Hash, so its keys are distinct. The model does not demand this of its input: `Lookup` takes the first entry for a key, and the update lemmas hold with or without repeated keys.
- Only two kinds of exception are modelled: `StatementInvalid` and every other kind. Exceptions raised by the record's own accessors are not modelled.

=== FILE: attribute_map.dfy ===
/**
 * Ordered, string-keyed maps: the shape of the Ruby Hash values the mixin
 * works with (`attributes_before_type_cast`, `changed_attributes`, the
 * update field hash). Iteration follows insertion order, assigning to a key
 * that is already present keeps its position, and lookup finds the first
 * entry with the key.
 */
module AttributeMap {
  import opened Optional

  type Entries<V> = seq<(string, V)>

  /** `hash.keys`, in iteration order. */
  function Keys<V>(m: Entries<V>): (ks: seq<string>)
    ensures |ks| == |m|
    ensures forall i :: 0 <= i < |m| ==> ks[i] == m[i].0
  {
    if |m| == 0 then [] else [m[0].0] + Keys(m[1..])
  }

  /** `hash.values`, in iteration order. */
  function Values<V>(m: Entries<V>): (vs: seq<V>)
    ensures |vs| == |m|
    ensures forall i :: 0 <= i < |m| ==> vs[i] == m[i].1
  {
    if |m| == 0 then [] else [m[0].1] + Values(m[1..])
  }

  /** Pairs the i-th key with the i-th value. */
  function Zip<V>(ks: seq<string>, vs: seq<V>): (m: Entries<V>)
    requires |ks| == |vs|
    ensures |m| == |ks|
    ensures forall i :: 0 <= i < |m| ==> m[i] == (ks[i], vs[i])
  {
    if |ks| == 0 then [] else [(ks[0], vs[0])] + Zip(ks[1..], vs[1..])
  }

  /** No key occurs twice, as in every Ruby Hash. */
  predicate DistinctKeys<V>(m: Entries<V>)
  {
    forall i, j :: 0 <= i < j < |m| ==> m[i].0 != m[j].0
  }

  /** `hash[k]`: the value of the first entry with key `k`, if any. */
  function Lookup<V>(m: Entries<V>, k: string): (r: Option<V>)
    ensures r.None? <==> k !in Keys(m)
    ensures r.Some? ==> (k, r.value) in m
  {
    if |m| == 0 then None
    else if m[0].0 == k then Some(m[0].1)
    else Lookup(m[1..], k)
  }

  /** `hash[k]`, with nil (here `absent`) for a missing key. */
  function Read<V>(m: Entries<V>, k: string, absent: V): V
  {
    match Lookup(m, k)
    case Some(v) => v
    case None => absent
  }

  /** `hash[k] = v`: replaces the value in place, or appends a new entry. */
  function Put<V>(m: Entries<V>, k: string, v: V): (r: Entries<V>)
    ensures Lookup(r, k) == Some(v)
    ensures forall j :: j != k ==> Lookup(r, j) == Lookup(m, j)
  {
    if |m| == 0 then [(k, v)]
    else if m[0].0 == k then [(k, v)] + m[1..]
    else [m[0]] + Put(m[1..], k, v)
  }

  /**
   * Writes every assignment of `writes` over `row`; an earlier assignment to
   * the same key wins, matching `Lookup`.
   */
  function Overwrite<V>(row: Entries<V>, writes: Entries<V>): (r: Entries<V>)
    ensures forall k :: Lookup(r, k) == if k in Keys(writes) then Lookup(writes, k) else Lookup(row, k)
  {
    if |writes| == 0 then row
    else Put(Overwrite(row, writes[1..]), writes[0].0, writes[0].1)
  }

  /** `hash.transform_values(&f)`: same keys in the same order. */
  function MapValues<V, W>(m: Entries<V>, f: V -> W): (r: Entries<W>)
    ensures Keys(r) == Keys(m)
    ensures forall k :: Lookup(r, k) == MapOption(Lookup(m, k), f)
  {
    if |m| == 0 then [] else [(m[0].0, f(m[0].1))] + MapValues(m[1..], f)
  }

  /** `hash.reject! { |key, _| key == k }`: drops every entry with key `k`. */
  function Reject<V>(m: Entries<V>, k: string): (r: Entries<V>)
    ensures k !in Keys(r)
    ensures forall j :: j != k ==> Lookup(r, j) == Lookup(m, j)
    ensures forall i :: 0 <= i < |r| ==> r[i] in m
    ensures forall i :: 0 <= i < |m| && m[i].0 != k ==> m[i] in r
  {
    if |m| == 0 then []
    else if m[0].0 == k then Reject(m[1..], k)
    else [m[0]] + Reject(m[1..], k)
  }

  /** Assigning keeps every key in its place; a new key goes last. */
  lemma {:induction false} PutKeepsPosition<V>(m: Entries<V>, k: string, v: V)
    ensures Keys(Put(m, k, v)) == if k in Keys(m) then Keys(m) else Keys(m) + [k]
  {
    if |m| > 0 {
      assert Keys(m) == [m[0].0] + Keys(m[1..]);
      if m[0].0 == k {
        assert Keys([(k, v)] + m[1..]) == [k] + Keys(m[1..]);
      } else {
        PutKeepsPosition(m[1..], k, v);
        var rest := Put(m[1..], k, v);
        assert Keys([m[0]] + rest) == [m[0].0] + Keys(rest);
      }
    }
  }

  /** Keys and values taken apart and paired again give back the map. */
  lemma ZipKeysValues<V>(m: Entries<V>)
    ensures Zip(Keys(m), Values(m)) == m
  {
  }

  /** Rejecting an absent key changes nothing. */
  lemma {:induction false} RejectAbsent<V>(m: Entries<V>, k: string)
    requires k !in Keys(m)
    ensures Reject(m, k) == m
  {
    if |m| > 0 {
      assert m[0].0 == Keys(m)[0];
      assert Keys(m[1..]) == Keys(m)[1..];
      RejectAbsent(m[1..], k);
    }
  }

  /** Rejecting works entry by entry: it distributes over concatenation. */
  lemma {:induction false} RejectAppend<V>(m1: Entries<V>, m2: Entries<V>, k: string)
    ensures Reject(m1 + m2, k) == Reject(m1, k) + Reject(m2, k)
  {
    if |m1| == 0 {
      assert m1 + m2 == m2;
    } else {
      assert (m1 + m2)[0] == m1[0];
      assert (m1 + m2)[1..] == m1[1..] + m2;
      RejectAppend(m1[1..], m2, k);
    }
  }

  /**
   * In a map with distinct keys, rejecting the key of entry `i` removes
   * exactly that entry and keeps every other one in its order.
   */
  lemma RejectRemovesOne<V>(m: Entries<V>, i: int)
    requires DistinctKeys(m)
    requires 0 <= i < |m|
    ensures Reject(m, m[i].0) == m[..i] + m[i + 1..]
  {
    var k := m[i].0;
    var before, after := m[..i], m[i + 1..];
    Decompose(m, i);
    assert k !in Keys(before) by {
      KeyAbsent(before, k);
    }
    assert k !in Keys(after) by {
      assert forall j :: 0 <= j < |after| ==> after[j] == m[i + 1 + j];
      KeyAbsent(after, k);
    }
    assert Reject(m, k) == Reject(before, k) + Reject([m[i]] + after, k) by {
      RejectAppend(before, [m[i]] + after, k);
    }
    assert Reject([m[i]] + after, k) == Reject(after, k) by {
      assert ([m[i]] + after)[1..] == after;
    }
    RejectAbsent(before, k);
    RejectAbsent(after, k);
  }

  lemma Decompose<V>(m: Entries<V>, i: int)
    requires 0 <= i < |m|
    ensures m == m[..i] + ([m[i]] + m[i + 1..])
  {
    assert m[i..] == [m[i]] + m[i + 1..];
    assert m == m[..i] + m[i..];
  }

  lemma KeyAbsent<V>(m: Entries<V>, k: string)
    requires forall j :: 0 <= j < |m| ==> m[j].0 != k
    ensures k !in Keys(m)
  {
  }
}

=== FILE: optional.dfy ===
/** An optional value: a hash lookup that may miss, an exception that may not be raised. */
module Optional {

  datatype Option<T> = None | Some(value: T)

  function MapOption<V, W>(o: Option<V>, f: V -> W): Option<W>
  {
    match o
    case None => None
    case Some(v) => Some(f(v))
  }
}

=== FILE: save_properties.dfy ===
/**
 * Properties of `SneakySave` that relate several of its functions, or the
 * model to an independent description of the stored row.
 */
module SaveProperties {
  import opened Optional
  import opened AttributeMap
  import opened Store
  import opened SneakySave
  import SqlText

  // ------------------------------------------------- primary-key resolution

  /**
   * With the key unset and prefetch allowed, the fetched sequence value is
   * the record's key before its attributes are taken: the insert writes the
   * primary-key column with that value and drops nothing. A truthy value is
   * the key the record keeps; if the insert fails, the key stays assigned.
   */
  lemma PrefetchAssignsSequenceValue(r: Record, a: Adapter, v: Value)
    requires Id(r) == Nil && a.prefetchPrimaryKey(r.table)
    requires a.nextSequenceValue(r.sequenceName) == Ok(v)
    ensures var keyed := AssignId(r, v);
            var m := CreateAttributes(keyed, a);
            && Create(r, a).calls == [FetchSequence(r.sequenceName), Insert(InsertStatementFor(keyed, a, m))]
            && m == AttributesBeforeTypeCast(keyed)
            && Lookup(m, r.primaryKey) == Some(v)
            && (Create(r, a).result.Raised? ==> Create(r, a).record == keyed)
            && (Create(r, a).result.Ok? && Truthy(v) ==>
                  Id(Create(r, a).record) == v && Create(r, a).result == Ok(true))
  {
    var keyed := AssignId(r, v);
    assert Lookup(keyed.attributes, r.primaryKey) == Some(Attribute(v, v));
    assert !StoreGeneratesId(keyed, a);
  }

  /** A failed sequence fetch is the outcome: nothing is inserted and the record is untouched. */
  lemma SequenceFailureStopsCreate(r: Record, a: Adapter, e: Error)
    requires Id(r) == Nil && a.prefetchPrimaryKey(r.table)
    requires a.nextSequenceValue(r.sequenceName) == Raised(e)
    ensures Create(r, a) == Outcome(r, Raised(e), [FetchSequence(r.sequenceName)])
  {
  }

  /**
   * A pre-assigned key is never replaced by a prefetch: no sequence value is
   * fetched, the insert writes every raw attribute, and a truthy key is the
   * one the record keeps.
   */
  lemma PreassignedIdKept(r: Record, a: Adapter)
    requires Id(r) != Nil
    ensures Create(r, a).calls == [Insert(InsertStatementFor(r, a, AttributesBeforeTypeCast(r)))]
    ensures Truthy(Id(r)) ==> Id(Create(r, a).record) == Id(r)
    ensures Truthy(Id(r)) && Create(r, a).result.Ok? ==> Create(r, a).result == Ok(true)
  {
  }

  /**
   * With the key unset and no prefetch, the insert map has no `'id'` column;
   * every other column keeps its raw value, and the record takes the id the
   * store reports.
   */
  lemma NoPrefetchDropsId(r: Record, a: Adapter)
    requires Id(r) == Nil && !a.prefetchPrimaryKey(r.table)
    ensures var m := CreateAttributes(r, a);
            && "id" !in Keys(m)
            && (forall k :: k != "id" ==> Lookup(m, k) == Lookup(AttributesBeforeTypeCast(r), k))
            && Create(r, a).calls == [Insert(InsertStatementFor(r, a, m))]
            && (a.insert(InsertStatementFor(r, a, m)).Ok? ==>
                  var newId := a.insert(InsertStatementFor(r, a, m)).value;
                  Id(Create(r, a).record) == newId && Create(r, a).result == Ok(Truthy(newId)))
  {
  }

  /**
   * When the record has an `'id'` column at position `i`, dropping it keeps
   * every other column, in order.
   */
  lemma DropIdKeepsOrder(r: Record, a: Adapter, i: int)
    requires StoreGeneratesId(r, a)
    requires DistinctKeys(r.attributes)
    requires 0 <= i < |r.attributes| && r.attributes[i].0 == "id"
    ensures var raw := AttributesBeforeTypeCast(r);
            CreateAttributes(r, a) == raw[..i] + raw[i + 1..]
  {
    var raw := AttributesBeforeTypeCast(r);
    assert Keys(raw) == Keys(r.attributes);
    assert raw[i].0 == "id";
    assert DistinctKeys(raw) by {
      forall p, q | 0 <= p < q < |raw| ensures raw[p].0 != raw[q].0 {
        assert raw[p].0 == Keys(raw)[p] == Keys(r.attributes)[p];
        assert raw[q].0 == Keys(raw)[q] == Keys(r.attributes)[q];
      }
    }
    RejectRemovesOne(raw, i);
  }

  /**
   * The key column is written exactly when the key is set or prefetched: the
   * `'id'` column is missing from the insert iff the store generates the key
   * (for a record whose key column is named `'id'`).
   */
  lemma IdColumnWrittenUnlessGenerated(r: Record, a: Adapter)
    requires r.primaryKey == "id" && "id" in Keys(r.attributes)
    ensures "id" in Keys(CreateAttributes(r, a)) <==> !StoreGeneratesId(r, a)
  {
    if !StoreGeneratesId(r, a) {
      assert Keys(AttributesBeforeTypeCast(r)) == Keys(r.attributes);
    }
  }

  /**
   * An empty insert map (the key left to the store and no other column) is
   * written as the all-defaults row, and the record still takes the id the
   * store reports.
   */
  lemma EmptyRowTakesStoreId(r: Record, a: Adapter)
    requires StoreGeneratesId(r, a)
    requires CreateAttributes(r, a) == []
    ensures Create(r, a).calls == [Insert(InsertDefaults(r.table, a.emptyInsertStatementValue))]
    ensures a.insert(InsertDefaults(r.table, a.emptyInsertStatementValue)).Ok? ==>
              Id(Create(r, a).record) == a.insert(InsertDefaults(r.table, a.emptyInsertStatementValue)).value
  {
  }

  /**
   * A create writes nothing but the key and the lifecycle flag: every other
   * attribute reads as before, and the only entry of the change set that can
   * differ is the key's. The key the record has in the store is unchanged.
   */
  lemma CreateWritesOnlyKey(r: Record, a: Adapter)
    ensures var o := Create(r, a);
            && (forall name :: name != r.primaryKey ==> ReadAttribute(o.record, name) == ReadAttribute(r, name))
            && (forall name :: name != r.primaryKey ==> Lookup(o.record.attributes, name) == Lookup(r.attributes, name))
            && (forall name :: name != r.primaryKey ==>
                  Lookup(o.record.changedAttributes, name) == Lookup(r.changedAttributes, name))
            && OriginalId(o.record) == OriginalId(r)
            && o.record == r.(attributes := o.record.attributes, changedAttributes := o.record.changedAttributes,
                              newRecord := o.record.newRecord)
  {
    if Id(r) == Nil && a.prefetchPrimaryKey(r.table) {
      match a.nextSequenceValue(r.sequenceName)
      case Raised(_) =>
      case Ok(v) =>
        InsertRowWritesOnlyKey(AssignId(r, v), a, CreateStatement(AssignId(r, v), a));
    } else {
      InsertRowWritesOnlyKey(r, a, CreateStatement(r, a));
    }
  }

  /**
   * The mixin never clears the change set. After a create that took its key
   * from the sequence or the store, the key is still recorded as changed from
   * nil, so a second save of the same object is an update of the row whose
   * key is nil.
   */
  lemma SecondSaveTargetsNilKey(r: Record, a: Adapter)
    requires r.newRecord && Id(r) == Nil && r.primaryKey !in Keys(r.changedAttributes)
    requires Create(r, a).result == Ok(true)
    ensures var done := Create(r, a).record;
            && !done.newRecord && Truthy(Id(done))
            && Lookup(done.changedAttributes, r.primaryKey) == Some(Nil)
            && UpdateStatementFor(done).keyValue == Nil
            && Save(done, a).calls == [UpdateAll(UpdateStatementFor(done))]
  {
    var done := Create(r, a).record;
    CreateWritesOnlyKey(r, a);
    assert OriginalId(done) == Nil;
    assert done.primaryKey == r.primaryKey;
  }

  lemma InsertRowWritesOnlyKey(r: Record, a: Adapter, statement: InsertStatement)
    ensures var o := InsertRow(r, a, statement);
            && (forall name :: name != r.primaryKey ==> ReadAttribute(o.record, name) == ReadAttribute(r, name))
            && (forall name :: name != r.primaryKey ==> Lookup(o.record.attributes, name) == Lookup(r.attributes, name))
            && (forall name :: name != r.primaryKey ==>
                  Lookup(o.record.changedAttributes, name) == Lookup(r.changedAttributes, name))
            && OriginalId(o.record) == OriginalId(r)
            && o.record == r.(attributes := o.record.attributes, changedAttributes := o.record.changedAttributes,
                              newRecord := o.record.newRecord)
  {
    match a.insert(statement)
    case Raised(_) =>
    case Ok(n) =>
      assert InsertRow(r, a, statement).record == MarkInserted(r, n);
  }

  // ------------------------------------------------------ exceptions

  /**
   * A failing `update_all` reaches the caller of `sneaky_save!` unchanged;
   * `sneaky_save` answers false for a `StatementInvalid` and raises any other
   * kind. Either way the record is untouched.
   */
  lemma UpdateErrorReachesCaller(r: Record, a: Adapter, e: Error)
    requires !r.newRecord && |r.changedAttributes| > 0
    requires a.updateAll(UpdateStatementFor(r)) == Raised(e)
    ensures SaveBang(r, a) == Outcome(r, Raised(e), [UpdateAll(UpdateStatementFor(r))])
    ensures Save(r, a).result == if e.StatementInvalid? then Ok(false) else Raised(e)
  {
  }

  /**
   * A failing insert of a record whose key needs no prefetch reaches the
   * caller of `sneaky_save!` unchanged, with the record still new.
   */
  lemma InsertErrorReachesCaller(r: Record, a: Adapter, e: Error)
    requires r.newRecord && !(Id(r) == Nil && a.prefetchPrimaryKey(r.table))
    requires a.insert(CreateStatement(r, a)) == Raised(e)
    ensures SaveBang(r, a) == Outcome(r, Raised(e), [Insert(CreateStatement(r, a))])
    ensures Save(r, a).result == if e.StatementInvalid? then Ok(false) else Raised(e)
  {
  }

  /**
   * A failing insert after a successful prefetch reaches the caller of
   * `sneaky_save!` unchanged; the fetched key stays assigned.
   */
  lemma PrefetchedInsertErrorReachesCaller(r: Record, a: Adapter, v: Value, e: Error)
    requires r.newRecord && Id(r) == Nil && a.prefetchPrimaryKey(r.table)
    requires a.nextSequenceValue(r.sequenceName) == Ok(v)
    requires a.insert(CreateStatement(AssignId(r, v), a)) == Raised(e)
    ensures SaveBang(r, a) == Outcome(AssignId(r, v), Raised(e),
              [FetchSequence(r.sequenceName), Insert(CreateStatement(AssignId(r, v), a))])
    ensures Save(r, a).result == if e.StatementInvalid? then Ok(false) else Raised(e)
  {
  }

  /**
   * A failing `next_sequence_value` reaches the caller of `sneaky_save!`
   * unchanged, and `sneaky_save` rescues it like any other `StatementInvalid`.
   */
  lemma FetchErrorReachesCaller(r: Record, a: Adapter, e: Error)
    requires r.newRecord && Id(r) == Nil && a.prefetchPrimaryKey(r.table)
    requires a.nextSequenceValue(r.sequenceName) == Raised(e)
    ensures SaveBang(r, a) == Outcome(r, Raised(e), [FetchSequence(r.sequenceName)])
    ensures Save(r, a).result == if e.StatementInvalid? then Ok(false) else Raised(e)
  {
  }

  // ------------------------------------------------------- insert rendering

  /**
   * An empty attribute map is inserted as the dialect's all-defaults row;
   * otherwise as `INSERT INTO <table> (<columns>) VALUES (<values>)`, whose
   * n quoted columns and n quoted values come from the same map in the same
   * order: pairing them back by position gives the map again.
   */
  lemma InsertColumnsAlignWithValues(r: Record, a: Adapter, m: Entries<Value>)
    ensures |m| == 0 ==> InsertStatementFor(r, a, m) == InsertDefaults(r.table, a.emptyInsertStatementValue)
    ensures |m| > 0 ==>
              var columns := QuoteColumns(a, Keys(m));
              var values := QuoteValues(a, Values(m));
              && InsertStatementFor(r, a, m)
                 == InsertSql(SqlText.InsertInto(a.quoteTableName(r.table), columns, values))
              && |columns| == |values| == |m|
              && (forall i :: 0 <= i < |m| ==>
                    columns[i] == a.quoteColumnName(m[i].0) && values[i] == a.quote(m[i].1))
    ensures Zip(Keys(m), Values(m)) == m
  {
    ZipKeysValues(m);
  }

  /**
   * When the adapter's quoting leaves no comma inside a column or a value,
   * the rendered lists read back, piece by piece, as the quoted columns and
   * the quoted values.
   */
  lemma InsertListsReadBack(a: Adapter, m: Entries<Value>)
    requires |m| > 0
    requires forall i :: 0 <= i < |m| ==>
               SqlText.CommaFree(a.quoteColumnName(m[i].0)) && SqlText.CommaFree(a.quote(m[i].1))
    ensures SqlText.Split(SqlText.Join(QuoteColumns(a, Keys(m)))) == QuoteColumns(a, Keys(m))
    ensures SqlText.Split(SqlText.Join(QuoteValues(a, Values(m)))) == QuoteValues(a, Values(m))
  {
    var columns := QuoteColumns(a, Keys(m));
    assert forall i :: 0 <= i < |columns| ==> SqlText.CommaFree(columns[i]) by {
      forall i | 0 <= i < |columns| ensures SqlText.CommaFree(columns[i]) {
        assert columns[i] == a.quoteColumnName(Keys(m)[i]);
      }
    }
    SqlText.SplitJoin(columns);
    var values := QuoteValues(a, Values(m));
    assert forall i :: 0 <= i < |values| ==> SqlText.CommaFree(values[i]) by {
      forall i | 0 <= i < |values| ensures SqlText.CommaFree(values[i]) {
        assert values[i] == a.quote(Values(m)[i]);
      }
    }
    SqlText.SplitJoin(values);
  }

  // ---------------------------------------------------------------- update

  /**
   * The row as the store holds it: the record's current values with every
   * changed attribute put back to its value before the change.
   */
  function StoredRow(r: Record): Entries<Value>
  {
    Overwrite(MapValues(r.attributes, CastOf), r.changedAttributes)
  }

  /** The UPDATE finds the row by the key it has in the store, even when the key itself changed. */
  lemma OriginalIdIsStoredKey(r: Record)
    ensures OriginalId(r) == Read(StoredRow(r), r.primaryKey, Nil)
  {
    var current := MapValues(r.attributes, CastOf);
    assert Lookup(current, r.primaryKey) == MapOption(Lookup(r.attributes, r.primaryKey), CastOf);
  }

  /**
   * Writing the SET assignments over the stored row gives a row that reads,
   * column by column, exactly like the record.
   */
  lemma UpdateRestoresCurrentRow(r: Record)
    ensures forall k :: Read(Overwrite(StoredRow(r), UpdateFields(r)), k, Nil) == ReadAttribute(r, k)
  {
    var fields := UpdateFields(r);
    var current := MapValues(r.attributes, CastOf);
    forall k ensures Read(Overwrite(StoredRow(r), fields), k, Nil) == ReadAttribute(r, k) {
      if k !in Keys(fields) {
        assert Lookup(current, k) == MapOption(Lookup(r.attributes, k), CastOf);
      }
    }
  }

  /**
   * The UPDATE assigns exactly the changed fields, each its current value,
   * where the key column holds the stored key; the result is true iff a
   * row was affected.
   */
  lemma UpdatePlan(r: Record, a: Adapter, rows: nat)
    requires |r.changedAttributes| > 0
    requires a.updateAll(UpdateStatementFor(r)) == Ok(rows)
    ensures var s := UpdateStatementFor(r);
            && Update(r, a).calls == [UpdateAll(s)]
            && s.table == r.table && s.keyColumn == r.primaryKey
            && s.keyValue == Read(StoredRow(r), r.primaryKey, Nil)
            && Keys(s.assignments) == Keys(r.changedAttributes)
            && (forall k :: k in Keys(s.assignments) ==> Lookup(s.assignments, k) == Some(ReadAttribute(r, k)))
            && Update(r, a).result == Ok(rows != 0)
  {
    OriginalIdIsStoredKey(r);
  }

  // ----------------------------------------------------------- scenarios

  function WidgetQuote(v: Value): string
  {
    match v
    case Int(42) => "42"
    case Int(7) => "7"
    case Text(s) => "'" + s + "'"
    case _ => "NULL"
  }

  function WidgetAdapter(prefetch: bool, inserted: Value, rows: nat): Adapter
  {
    Adapter(
      _ => prefetch,
      _ => Ok(Int(42)),
      "DEFAULT VALUES",
      t => t,
      c => c,
      WidgetQuote,
      _ => Ok(inserted),
      _ => Ok(rows))
  }

  lemma WidgetQuoting(a: Adapter)
    requires a.quote == WidgetQuote
    ensures a.quote(Int(42)) == "42" && a.quote(Text("A")) == "'A'"
  {
    assert WidgetQuote(Text("A")) == "'" + "A" + "'";
    assert "'" + "A" + "'" == "'A'";
  }

  const NewWidget := Record("widgets", "widgets_id_seq", "id", true,
    [("id", Attribute(Nil, Nil)), ("name", Attribute(Text("A"), Text("A")))], [])

  /** With prefetch, the key 42 comes from the sequence and is written with the name. */
  lemma WidgetWithPrefetch()
    ensures var o := Save(NewWidget, WidgetAdapter(true, Int(42), 1));
            && o.calls == [FetchSequence("widgets_id_seq"),
                           Insert(InsertSql("INSERT INTO widgets (id, name) VALUES (42, 'A')"))]
            && Id(o.record) == Int(42) && !o.record.newRecord
            && o.result == Ok(true)
  {
    WidgetPrefetchAttributes();
    WidgetPrefetchSql();
  }

  lemma WidgetPrefetchAttributes()
    ensures CreateAttributes(AssignId(NewWidget, Int(42)), WidgetAdapter(true, Int(42), 1))
            == [("id", Int(42)), ("name", Text("A"))]
  {
    var keyed := AssignId(NewWidget, Int(42));
    assert keyed.attributes == [("id", Attribute(Int(42), Int(42))), ("name", Attribute(Text("A"), Text("A")))];
  }

  lemma WidgetPrefetchSql()
    ensures InsertRecordSql("widgets", [("id", Int(42)), ("name", Text("A"))], WidgetAdapter(true, Int(42), 1))
            == "INSERT INTO widgets (id, name) VALUES (42, 'A')"
  {
    var a := WidgetAdapter(true, Int(42), 1);
    var m := [("id", Int(42)), ("name", Text("A"))];
    assert QuoteColumns(a, Keys(m)) == ["id", "name"] by {
      assert Keys(m) == ["id", "name"];
    }
    assert QuoteValues(a, Values(m)) == ["42", "'A'"] by {
      assert Values(m) == [Int(42), Text("A")];
      WidgetQuoting(a);
    }
    assert SqlText.Join(["id", "name"]) == "id, name";
    assert SqlText.Join(["42", "'A'"]) == "42, 'A'";
    WidgetPrefetchFrame();
  }

  // The two frame lemmas below only glue string literals together. They stand
  // apart from the SQL lemmas because, proved inside them, the literal
  // concatenation meets the whole unfolded SQL text and costs several times
  // as much.

  lemma WidgetPrefetchFrame()
    ensures "INSERT INTO " + "widgets" + " (" + "id, name" + ") VALUES (" + "42, 'A'" + ")"
            == "INSERT INTO widgets (id, name) VALUES (42, 'A')"
  {
  }

  lemma WidgetNoPrefetchFrame()
    ensures "INSERT INTO " + "widgets" + " (" + "name" + ") VALUES (" + "'A'" + ")"
            == "INSERT INTO widgets (name) VALUES ('A')"
  {
  }

  /** The widget's quoted columns and values hold no comma, so its lists read back. */
  lemma WidgetListsReadBack()
    ensures var a := WidgetAdapter(true, Int(42), 1);
            var m := [("id", Int(42)), ("name", Text("A"))];
            && SqlText.Split(SqlText.Join(QuoteColumns(a, Keys(m)))) == QuoteColumns(a, Keys(m))
            && SqlText.Split(SqlText.Join(QuoteValues(a, Values(m)))) == QuoteValues(a, Values(m))
  {
    var a := WidgetAdapter(true, Int(42), 1);
    var m := [("id", Int(42)), ("name", Text("A"))];
    WidgetQuoting(a);
    assert SqlText.CommaFree("'A'") by {
      assert "'A'" == ['\'', 'A', '\''];
    }
    InsertListsReadBack(a, m);
  }

  /** Without prefetch, the id column is left out and the store's id (5) is taken. */
  lemma WidgetWithoutPrefetch()
    ensures var o := Save(NewWidget, WidgetAdapter(false, Int(5), 1));
            && o.calls == [Insert(InsertSql("INSERT INTO widgets (name) VALUES ('A')"))]
            && Id(o.record) == Int(5) && !o.record.newRecord
            && o.result == Ok(true)
  {
    WidgetNoPrefetchAttributes();
    WidgetNoPrefetchSql();
  }

  lemma WidgetNoPrefetchAttributes()
    ensures CreateAttributes(NewWidget, WidgetAdapter(false, Int(5), 1)) == [("name", Text("A"))]
  {
    assert AttributesBeforeTypeCast(NewWidget) == [("id", Nil), ("name", Text("A"))];
  }

  lemma WidgetNoPrefetchSql()
    ensures InsertRecordSql("widgets", [("name", Text("A"))], WidgetAdapter(false, Int(5), 1))
            == "INSERT INTO widgets (name) VALUES ('A')"
  {
    var a := WidgetAdapter(false, Int(5), 1);
    var m := [("name", Text("A"))];
    assert QuoteColumns(a, Keys(m)) == ["name"] by {
      assert Keys(m) == ["name"];
    }
    assert QuoteValues(a, Values(m)) == ["'A'"] by {
      assert Values(m) == [Text("A")];
      WidgetQuoting(a);
    }
    WidgetNoPrefetchFrame();
  }

  /**
   * Saving the widget a second time, after the create without prefetch:
   * `id` is still a change from nil, so the update matches no row.
   */
  lemma WidgetSecondSave()
    ensures var a := WidgetAdapter(false, Int(5), 0);
            var saved := Save(NewWidget, a).record;
            && saved.changedAttributes == [("id", Nil)]
            && Save(saved, a).calls == [UpdateAll(UpdateStatement("widgets", "id", Nil, [("id", Int(5))]))]
            && Save(saved, a).result == Ok(false)
  {
    var a := WidgetAdapter(false, Int(5), 0);
    WidgetNoPrefetchAttributes();
    var saved := Save(NewWidget, a).record;
    assert saved.changedAttributes == [("id", Nil)];
    assert UpdateFields(saved) == [("id", Int(5))];
  }

  const ChangedWidget := Record("widgets", "widgets_id_seq", "id", false,
    [("id", Attribute(Int(7), Int(7))), ("name", Attribute(Text("B"), Text("B")))],
    [("name", Text("A"))])

  /** A renamed widget 7: `SET name = 'B' WHERE id = 7`, true iff a row was hit. */
  lemma WidgetRename(rows: nat)
    ensures var o := Save(ChangedWidget, WidgetAdapter(false, Nil, rows));
            && o.calls == [UpdateAll(UpdateStatement("widgets", "id", Int(7), [("name", Text("B"))]))]
            && o.result == Ok(rows != 0)
  {
    assert UpdateFields(ChangedWidget) == [("name", Text("B"))];
  }

  /** A failing statement: `sneaky_save` answers false, `sneaky_save!` raises it. */
  lemma WidgetStatementInvalid()
    ensures var a := WidgetAdapter(false, Nil, 0).(updateAll := _ => Raised(StatementInvalid("deadlock")));
            && Save(ChangedWidget, a).result == Ok(false)
            && SaveBang(ChangedWidget, a).result == Raised(StatementInvalid("deadlock"))
  {
  }
}

=== FILE: sneaky_save.dfy ===
/**
 * The `SneakySave` mixin: writes one record with a raw INSERT or UPDATE,
 * skipping validations and callbacks. The record's state and the store's
 * answers are inputs; every operation returns the record as it is left, the
 * boolean result or the exception raised, and the store calls it made.
 */
module SneakySave {
  import opened Optional
  import opened AttributeMap
  import opened Store
  import SqlText

  /** One attribute: its value before type cast (as assigned) and as read back. */
  datatype Attribute = Attribute(raw: Value, cast: Value)

  datatype Record = Record(
    table: string,                       // `self.class.table_name`
    sequenceName: string,                // `self.class.sequence_name`
    primaryKey: string,                  // `self.class.primary_key`
    newRecord: bool,                     // `new_record?`
    attributes: Entries<Attribute>,
    changedAttributes: Entries<Value>)   // changed field => value before the change

  datatype Outcome = Outcome(record: Record, result: Result<bool>, calls: seq<StoreCall>)

  /** `read_attribute(name)`: the type-cast value; nil for an unknown attribute. */
  function ReadAttribute(r: Record, name: string): Value
  {
    match Lookup(r.attributes, name)
    case Some(a) => a.cast
    case None => Nil
  }

  /** `id`: the value of the primary-key attribute. */
  function Id(r: Record): Value
  {
    ReadAttribute(r, r.primaryKey)
  }

  /**
   * ActiveRecord's dirty tracking of a write of `after` to attribute `name`,
   * whose value was `before`: the attribute is a change exactly while its
   * value differs from the value it had originally, and the change set keeps
   * that original value. No other attribute's entry is touched.
   */
  function TrackWrite(changes: Entries<Value>, name: string, before: Value, after: Value): (c: Entries<Value>)
    ensures name in Keys(c) <==> after != Read(changes, name, before)
    ensures name in Keys(c) ==> Lookup(c, name) == Some(Read(changes, name, before))
    ensures forall k :: k != name ==> Lookup(c, k) == Lookup(changes, k)
  {
    match Lookup(changes, name)
    case Some(original) => if after == original then Reject(changes, name) else changes
    case None => if after == before then changes else Put(changes, name, before)
  }

  /**
   * `self.id = v`: writes the primary-key attribute, and dirty tracking
   * records the write. The key the record has in the store is unchanged.
   */
  function AssignId(r: Record, v: Value): (r': Record)
    ensures Id(r') == v
    ensures forall name :: name != r.primaryKey ==> ReadAttribute(r', name) == ReadAttribute(r, name)
    ensures Lookup(r'.attributes, r.primaryKey) == Some(Attribute(v, v))
    ensures forall name :: name != r.primaryKey ==> Lookup(r'.attributes, name) == Lookup(r.attributes, name)
    ensures OriginalId(r') == OriginalId(r)
    ensures r.primaryKey in Keys(r'.changedAttributes) <==> v != OriginalId(r)
    ensures forall name :: name != r.primaryKey ==>
              Lookup(r'.changedAttributes, name) == Lookup(r.changedAttributes, name)
    ensures r' == r.(attributes := r'.attributes, changedAttributes := r'.changedAttributes)
  {
    r.(attributes := Put(r.attributes, r.primaryKey, Attribute(v, v)),
       changedAttributes := TrackWrite(r.changedAttributes, r.primaryKey, Id(r), v))
  }

  function RawOf(a: Attribute): Value { a.raw }

  function CastOf(a: Attribute): Value { a.cast }

  /** `attributes_before_type_cast`. */
  function AttributesBeforeTypeCast(r: Record): Entries<Value>
  {
    MapValues(r.attributes, RawOf)
  }

  // ---------------------------------------------------------------- create

  /** Whether the create drops the `'id'` column so that the store generates the key. */
  predicate StoreGeneratesId(r: Record, a: Adapter)
  {
    Id(r) == Nil && !a.prefetchPrimaryKey(r.table)
  }

  /**
   * `get_attribute_values`: the raw attributes, without the column literally
   * named `'id'` when the key is unset and cannot be prefetched.
   */
  function GetAttributeValues(r: Record, a: Adapter): (m: Entries<Value>)
    ensures StoreGeneratesId(r, a) ==> "id" !in Keys(m)
    ensures !StoreGeneratesId(r, a) ==> m == AttributesBeforeTypeCast(r)
    ensures forall k :: k != "id" ==> Lookup(m, k) == MapOption(Lookup(r.attributes, k), RawOf)
    ensures forall i :: 0 <= i < |m| ==> m[i] in AttributesBeforeTypeCast(r)
  {
    var values := AttributesBeforeTypeCast(r);
    if StoreGeneratesId(r, a) then Reject(values, "id") else values
  }

  /**
   * `key.try(:name)`: the attribute keys are strings, which do not respond to
   * `name`, so `try` answers nil.
   */
  function KeyName(key: string): Option<string>
  {
    None
  }

  /** `reject! { |key, _| key.try(:name) == name }`. */
  function RejectByName(m: Entries<Value>, name: string): (r: Entries<Value>)
    ensures r == m
  {
    if |m| == 0 then []
    else (if KeyName(m[0].0) == Some(name) then [] else [m[0]]) + RejectByName(m[1..], name)
  }

  /** The attribute map the create writes: `get_attribute_values` and the second filter. */
  function CreateAttributes(r: Record, a: Adapter): (m: Entries<Value>)
    ensures m == GetAttributeValues(r, a)
  {
    var m := GetAttributeValues(r, a);
    if StoreGeneratesId(r, a) then RejectByName(m, "id") else m
  }

  function QuoteColumns(a: Adapter, columns: seq<string>): (q: seq<string>)
    ensures |q| == |columns|
    ensures forall i :: 0 <= i < |columns| ==> q[i] == a.quoteColumnName(columns[i])
  {
    seq(|columns|, i requires 0 <= i < |columns| => a.quoteColumnName(columns[i]))
  }

  function QuoteValues(a: Adapter, values: seq<Value>): (q: seq<string>)
    ensures |q| == |values|
    ensures forall i :: 0 <= i < |values| ==> q[i] == a.quote(values[i])
  {
    seq(|values|, i requires 0 <= i < |values| => a.quote(values[i]))
  }

  /**
   * The SQL text of `insert_record`: the INSERT frame around the quoted table
   * name, one quoted column per entry and one quoted value per entry, the
   * i-th column and the i-th value both taken from the i-th entry.
   */
  function InsertRecordSql(table: string, m: Entries<Value>, a: Adapter): (sql: string)
    ensures var columns := QuoteColumns(a, Keys(m));
            var values := QuoteValues(a, Values(m));
            && sql == SqlText.InsertInto(a.quoteTableName(table), columns, values)
            && |columns| == |values| == |m|
            && (forall i :: 0 <= i < |m| ==> columns[i] == a.quoteColumnName(m[i].0) && values[i] == a.quote(m[i].1))
  {
    SqlText.InsertInto(a.quoteTableName(table), QuoteColumns(a, Keys(m)), QuoteValues(a, Values(m)))
  }

  /** The statement of a create: the all-defaults row for an empty map, else `insert_record`. */
  function InsertStatementFor(r: Record, a: Adapter, m: Entries<Value>): (s: InsertStatement)
    ensures s.InsertDefaults? <==> |m| == 0
    ensures s.InsertDefaults? ==> s.table == r.table && s.emptyValues == a.emptyInsertStatementValue
    ensures s.InsertSql? ==> s.sql == InsertRecordSql(r.table, m, a)
  {
    if |m| == 0 then InsertDefaults(r.table, a.emptyInsertStatementValue)
    else InsertSql(InsertRecordSql(r.table, m, a))
  }

  /**
   * `@new_record = false` and `self.id ||= new_id`. The change set is not
   * cleared, so a key taken from the store stays recorded as a change.
   */
  function MarkInserted(r: Record, newId: Value): (r': Record)
    ensures !r'.newRecord
    ensures Id(r') == if Truthy(Id(r)) then Id(r) else newId
    ensures forall name :: name != r.primaryKey ==> ReadAttribute(r', name) == ReadAttribute(r, name)
    ensures forall name :: name != r.primaryKey ==> Lookup(r'.attributes, name) == Lookup(r.attributes, name)
    ensures OriginalId(r') == OriginalId(r)
    ensures forall name :: name != r.primaryKey ==>
              Lookup(r'.changedAttributes, name) == Lookup(r.changedAttributes, name)
    ensures r' == r.(attributes := r'.attributes, changedAttributes := r'.changedAttributes, newRecord := false)
  {
    (if Truthy(Id(r)) then r else AssignId(r, newId)).(newRecord := false)
  }

  /** The statement the create hands to the store for `r`. */
  function CreateStatement(r: Record, a: Adapter): InsertStatement
  {
    InsertStatementFor(r, a, CreateAttributes(r, a))
  }

  /** Runs the insert `statement` for `r`: `self.id ||= new_id` and `@new_record = false` on success. */
  function InsertRow(r: Record, a: Adapter, statement: InsertStatement): (o: Outcome)
    ensures o.calls == [Insert(statement)]
    ensures o.result.Raised? ==> o.record == r && a.insert(statement) == Raised(o.result.error)
    ensures o.result.Ok? ==> a.insert(statement).Ok? && o.record == MarkInserted(r, a.insert(statement).value)
    ensures o.result.Ok? ==> !o.record.newRecord && o.result.value == Truthy(Id(o.record))
  {
    match a.insert(statement)
    case Raised(e) => Outcome(r, Raised(e), [Insert(statement)])
    case Ok(newId) =>
      var done := MarkInserted(r, newId);
      Outcome(done, Ok(Truthy(Id(done))), [Insert(statement)])
  }

  /**
   * The steps of `sneaky_create`: fetch the key from the sequence when it is
   * unset and the store allows it, then insert the statement `build` makes of
   * the keyed record. `Create` is the only caller, and it always passes
   * `CreateStatement`; keeping the statement a parameter here only spares
   * these proofs the unfolding of the SQL text.
   */
  function CreateSteps(r: Record, a: Adapter, build: Record -> InsertStatement): (o: Outcome)
    ensures o.result.Ok? ==> !o.record.newRecord && o.result.value == Truthy(Id(o.record))
    ensures o.result.Raised? ==> o.record.newRecord == r.newRecord
    ensures forall i :: 0 <= i < |o.calls| ==> !o.calls[i].UpdateAll?
    ensures Id(r) == Nil && a.prefetchPrimaryKey(r.table) ==>
              |o.calls| > 0 && o.calls[0] == FetchSequence(r.sequenceName)
    ensures |o.calls| > 0 && (o.calls[|o.calls| - 1].Insert? || o.calls == [FetchSequence(r.sequenceName)])
    ensures o.result.Ok? ==> o.calls[|o.calls| - 1].Insert?
    ensures Propagates(a, o.calls, o.result)
  {
    if Id(r) == Nil && a.prefetchPrimaryKey(r.table) then
      match a.nextSequenceValue(r.sequenceName)
      case Raised(e) => Outcome(r, Raised(e), [FetchSequence(r.sequenceName)])
      case Ok(v) =>
        var keyed := AssignId(r, v);
        var inserted := InsertRow(keyed, a, build(keyed));
        Outcome(inserted.record, inserted.result, [FetchSequence(r.sequenceName), Insert(build(keyed))])
    else InsertRow(r, a, build(r))
  }

  /** `sneaky_create`. */
  function Create(r: Record, a: Adapter): (o: Outcome)
    ensures o.result.Ok? ==> !o.record.newRecord && o.result.value == Truthy(Id(o.record))
    ensures o.result.Raised? ==> o.record.newRecord == r.newRecord
    ensures forall i :: 0 <= i < |o.calls| ==> !o.calls[i].UpdateAll?
    ensures Id(r) == Nil && a.prefetchPrimaryKey(r.table) ==>
              |o.calls| > 0 && o.calls[0] == FetchSequence(r.sequenceName)
    ensures |o.calls| > 0 && (o.calls[|o.calls| - 1].Insert? || o.calls == [FetchSequence(r.sequenceName)])
    ensures o.result.Ok? ==> o.calls[|o.calls| - 1].Insert?
    ensures Propagates(a, o.calls, o.result)
  {
    CreateSteps(r, a, keyed => CreateStatement(keyed, a))
  }

  // ---------------------------------------------------------------- update

  /**
   * The primary-key value the WHERE clause targets: the value before the
   * change when the key itself changed, else the current one.
   */
  function OriginalId(r: Record): (v: Value)
    ensures r.primaryKey in Keys(r.changedAttributes) ==> Lookup(r.changedAttributes, r.primaryKey) == Some(v)
    ensures r.primaryKey !in Keys(r.changedAttributes) ==> v == Id(r)
  {
    match Lookup(r.changedAttributes, r.primaryKey)
    case Some(before) => before
    case None => Id(r)
  }

  /** `sneaky_update_fields`: every changed field with its current value. */
  function UpdateFields(r: Record): (fields: Entries<Value>)
    ensures Keys(fields) == Keys(r.changedAttributes)
    ensures DistinctKeys(r.changedAttributes) ==> DistinctKeys(fields)
    ensures forall k :: k in Keys(fields) ==> Lookup(fields, k) == Some(ReadAttribute(r, k))
  {
    FieldsFor(r, Keys(r.changedAttributes))
  }

  function FieldsFor(r: Record, names: seq<string>): (fields: Entries<Value>)
    ensures Keys(fields) == names
    ensures forall k :: k in names ==> Lookup(fields, k) == Some(ReadAttribute(r, k))
  {
    if |names| == 0 then []
    else [(names[0], ReadAttribute(r, names[0]))] + FieldsFor(r, names[1..])
  }

  function UpdateStatementFor(r: Record): UpdateStatement
  {
    UpdateStatement(r.table, r.primaryKey, OriginalId(r), UpdateFields(r))
  }

  /** `sneaky_update`. */
  function Update(r: Record, a: Adapter): (o: Outcome)
    ensures o.record == r
    ensures |r.changedAttributes| == 0 ==> o.result == Ok(true) && o.calls == []
    ensures |r.changedAttributes| > 0 ==> o.calls == [UpdateAll(UpdateStatementFor(r))]
    ensures |r.changedAttributes| > 0 ==>
              (o.result.Ok? <==> a.updateAll(UpdateStatementFor(r)).Ok?)
    ensures |r.changedAttributes| > 0 && o.result.Ok? ==>
              (o.result.value <==> a.updateAll(UpdateStatementFor(r)).value != 0)
    ensures |r.changedAttributes| > 0 && o.result.Raised? ==>
              a.updateAll(UpdateStatementFor(r)) == Raised(o.result.error)
  {
    if |r.changedAttributes| == 0 then Outcome(r, Ok(true), [])
    else UpdateRows(r, a, UpdateStatementFor(r))
  }

  /** Runs `update_all` for `statement`: true iff it affected a row, its exception otherwise. */
  function UpdateRows(r: Record, a: Adapter, statement: UpdateStatement): (o: Outcome)
    ensures o.record == r && o.calls == [UpdateAll(statement)]
    ensures o.result.Ok? <==> a.updateAll(statement).Ok?
    ensures o.result.Ok? ==> (o.result.value <==> a.updateAll(statement).value != 0)
    ensures o.result.Raised? ==> a.updateAll(statement) == Raised(o.result.error)
    ensures Propagates(a, o.calls, o.result)
  {
    match a.updateAll(statement)
    case Raised(e) => Outcome(r, Raised(e), [UpdateAll(statement)])
    case Ok(rows) => Outcome(r, Ok(rows != 0), [UpdateAll(statement)])
  }

  // ---------------------------------------------------------------- save

  /** `sneaky_create_or_update`: the lifecycle flag alone picks the path. */
  function CreateOrUpdate(r: Record, a: Adapter): (o: Outcome)
    ensures r.newRecord ==> forall i :: 0 <= i < |o.calls| ==> !o.calls[i].UpdateAll?
    ensures !r.newRecord ==> forall i :: 0 <= i < |o.calls| ==> o.calls[i].UpdateAll?
    ensures !r.newRecord ==> o.record == r
    ensures o.result.Ok? && r.newRecord ==> !o.record.newRecord
    ensures r.newRecord ==> |o.calls| > 0
    ensures r.newRecord && o.result.Ok? ==> |o.calls| > 0 && o.calls[|o.calls| - 1].Insert?
    ensures !r.newRecord ==> |o.calls| == if |r.changedAttributes| == 0 then 0 else 1
    ensures !r.newRecord && |r.changedAttributes| == 0 ==> o.result == Ok(true)
    ensures !r.newRecord && |r.changedAttributes| > 0 ==> o.calls == [UpdateAll(UpdateStatementFor(r))]
    ensures !r.newRecord && |r.changedAttributes| > 0 ==>
              (o.result.Ok? <==> a.updateAll(UpdateStatementFor(r)).Ok?)
    ensures !r.newRecord && |r.changedAttributes| > 0 && o.result.Ok? ==>
              (o.result.value <==> a.updateAll(UpdateStatementFor(r)).value != 0)
    ensures Propagates(a, o.calls, o.result)
  {
    if r.newRecord then Create(r, a) else Update(r, a)
  }

  /**
   * `sneaky_save!`: every exception of the create or update reaches the
   * caller. It raises exactly when a store call raised, and then it raises
   * that call's exception, of whatever kind, after which no store call is made.
   */
  function SaveBang(r: Record, a: Adapter): (o: Outcome)
    ensures Propagates(a, o.calls, o.result)
    ensures o.result.Ok? && r.newRecord ==> !o.record.newRecord && o.result.value == Truthy(Id(o.record))
    ensures !r.newRecord ==> o.record == r
    ensures r.newRecord ==> |o.calls| > 0
    ensures r.newRecord && o.result.Ok? ==> |o.calls| > 0 && o.calls[|o.calls| - 1].Insert?
    ensures !r.newRecord ==> |o.calls| == if |r.changedAttributes| == 0 then 0 else 1
    ensures !r.newRecord && |r.changedAttributes| == 0 ==> o.result == Ok(true)
    ensures !r.newRecord && |r.changedAttributes| > 0 ==> o.calls == [UpdateAll(UpdateStatementFor(r))]
    ensures !r.newRecord && |r.changedAttributes| > 0 ==>
              (o.result.Ok? <==> a.updateAll(UpdateStatementFor(r)).Ok?)
    ensures !r.newRecord && |r.changedAttributes| > 0 && o.result.Ok? ==>
              (o.result.value <==> a.updateAll(UpdateStatementFor(r)).value != 0)
  {
    CreateOrUpdate(r, a)
  }

  /**
   * `rescue ActiveRecord::StatementInvalid; false`: only that kind of
   * exception is caught; the record state and the calls made stay as they were.
   */
  function Rescue(o: Outcome): (o': Outcome)
    ensures o'.record == o.record && o'.calls == o.calls
    ensures o.result.Raised? && o.result.error.StatementInvalid? ==> o'.result == Ok(false)
    ensures !(o.result.Raised? && o.result.error.StatementInvalid?) ==> o'.result == o.result
    ensures !(o'.result.Raised? && o'.result.error.StatementInvalid?)
  {
    match o.result
    case Raised(StatementInvalid(_)) => o.(result := Ok(false))
    case _ => o
  }

  /**
   * `sneaky_save`: a `StatementInvalid` becomes `false`; any other result,
   * and the state the record is left in, is the one `sneaky_save!` gives.
   */
  function Save(r: Record, a: Adapter): (o: Outcome)
    ensures o.record == SaveBang(r, a).record && o.calls == SaveBang(r, a).calls
    ensures (SaveBang(r, a).result.Raised? && SaveBang(r, a).result.error.StatementInvalid?) ==>
              o.result == Ok(false)
    ensures !(SaveBang(r, a).result.Raised? && SaveBang(r, a).result.error.StatementInvalid?) ==>
              o.result == SaveBang(r, a).result
    ensures !(o.result.Raised? && o.result.error.StatementInvalid?)
  {
    Rescue(CreateOrUpdate(r, a))
  }
}

=== FILE: sql_text.dfy ===
/**
 * The text the mixin itself puts together for an INSERT: comma-separated
 * lists (Ruby's `Array#join(', ')`) inside the fixed
 * `INSERT INTO <table> (<columns>) VALUES (<values>)` frame. Quoting is not
 * done here; the pieces arrive already quoted by the store adapter.
 */
module SqlText {

  /** `pieces.join(', ')`. */
  function Join(pieces: seq<string>): string
  {
    if |pieces| == 0 then ""
    else if |pieces| == 1 then pieces[0]
    else pieces[0] + ", " + Join(pieces[1..])
  }

  /** No comma occurs in `x`. */
  predicate CommaFree(x: string)
  {
    forall i :: 0 <= i < |x| ==> x[i] != ','
  }

  /**
   * Cuts `s` at every ", " separator; the inverse of `Join` on pieces that
   * hold no comma.
   */
  function Split(s: string): (pieces: seq<string>)
    ensures |pieces| > 0
    decreases |s|
  {
    if |s| == 0 then [""]
    else if |s| >= 2 && s[0] == ',' && s[1] == ' ' then [""] + Split(s[2..])
    else
      var rest := Split(s[1..]);
      [[s[0]] + rest[0]] + rest[1..]
  }

  /** `INSERT INTO <table> (<columns>) VALUES (<values>)`. */
  function InsertInto(table: string, columns: seq<string>, values: seq<string>): string
  {
    "INSERT INTO " + table + " (" + Join(columns) + ") VALUES (" + Join(values) + ")"
  }

  /** A comma-free piece is split off whole, at the first separator after it. */
  lemma {:induction false} SplitFirstPiece(x: string, y: string)
    requires CommaFree(x)
    ensures Split(x) == [x]
    ensures Split(x + ", " + y) == [x] + Split(y)
    decreases |x|
  {
    if |x| == 0 {
      assert x + ", " + y == ", " + y;
      assert (", " + y)[2..] == y;
    } else {
      var s := x + ", " + y;
      assert s[0] == x[0];
      assert s[1..] == x[1..] + ", " + y;
      assert x == [x[0]] + x[1..];
      SplitFirstPiece(x[1..], y);
    }
  }

  /**
   * Splitting a joined list of comma-free pieces gives the list back: the
   * rendered list is read unambiguously, piece by piece, in order.
   */
  lemma {:induction false} SplitJoin(pieces: seq<string>)
    requires |pieces| > 0
    requires forall i :: 0 <= i < |pieces| ==> CommaFree(pieces[i])
    ensures Split(Join(pieces)) == pieces
  {
    if |pieces| == 1 {
      SplitFirstPiece(pieces[0], "");
    } else {
      SplitJoin(pieces[1..]);
      SplitFirstPiece(pieces[0], Join(pieces[1..]));
      assert pieces == [pieces[0]] + pieces[1..];
    }
  }
}

=== FILE: store.dfy ===
/**
 * The store adapter as the mixin sees it: capability and sequence queries,
 * identifier and literal quoting, and the two write calls. The sequence fetch
 * and the two writes can raise. Every one of them is a parameter; none is
 * interpreted here.
 */
module Store {
  import opened Optional
  import opened AttributeMap

  /** A raw column value as the store understands it. */
  datatype Value = Nil | Bool(b: bool) | Int(i: int) | Text(s: string)

  /** Ruby truthiness: only nil and false are falsy. */
  predicate Truthy(v: Value)
  {
    v != Nil && v != Bool(false)
  }

  /**
   * An exception raised by the store. `StatementInvalid` is the kind the
   * non-raising save rescues (`ActiveRecord::StatementInvalid`); every other
   * kind always reaches the caller.
   */
  datatype Error = StatementInvalid(message: string) | OtherError(message: string)

  /** What a store call returned, or the exception it raised. */
  datatype Result<T> = Ok(value: T) | Raised(error: Error)

  /** The statement handed to the store for a create. */
  datatype InsertStatement =
    | InsertDefaults(table: string, emptyValues: string)  // `unscoped.insert(empty_insert_statement_value)`
    | InsertSql(sql: string)                               // `connection.insert(sql)`

  /** `unscoped.where(keyColumn => keyValue).update_all(assignments)` on `table`. */
  datatype UpdateStatement = UpdateStatement(
    table: string,
    keyColumn: string,
    keyValue: Value,
    assignments: Entries<Value>)

  /** One round trip to the store, in the order the mixin makes them. */
  datatype StoreCall =
    | FetchSequence(sequence: string)
    | Insert(insert: InsertStatement)
    | UpdateAll(update: UpdateStatement)

  datatype Adapter = Adapter(
    prefetchPrimaryKey: string -> bool,            // `prefetch_primary_key?(table_name)`
    nextSequenceValue: string -> Result<Value>,    // `next_sequence_value(sequence_name)`
    emptyInsertStatementValue: string,             // the dialect's all-defaults row
    quoteTableName: string -> string,
    quoteColumnName: string -> string,
    quote: Value -> string,
    insert: InsertStatement -> Result<Value>,      // the id the store reports
    updateAll: UpdateStatement -> Result<nat>)     // the number of affected rows

  /** The exception the store raises for call `c`, if it raises one. */
  function RaisedBy(a: Adapter, c: StoreCall): Option<Error>
  {
    match c
    case FetchSequence(s) =>
      (match a.nextSequenceValue(s) case Raised(e) => Some(e) case Ok(_) => None)
    case Insert(st) =>
      (match a.insert(st) case Raised(e) => Some(e) case Ok(_) => None)
    case UpdateAll(u) =>
      (match a.updateAll(u) case Raised(e) => Some(e) case Ok(_) => None)
  }

  /**
   * `result` passes the store's exceptions on unchanged: it is an exception
   * exactly when one of `calls` raised, that call is the last one made, and
   * the exception is the one that call raised.
   */
  predicate Propagates<T>(a: Adapter, calls: seq<StoreCall>, result: Result<T>)
  {
    && (forall i :: 0 <= i < |calls| - 1 ==> RaisedBy(a, calls[i]) == None)
    && (result.Ok? ==> forall i :: 0 <= i < |calls| ==> RaisedBy(a, calls[i]) == None)
    && (result.Raised? ==> |calls| > 0 && RaisedBy(a, calls[|calls| - 1]) == Some(result.error))
  }
}
